=== FILE: README.md ===
# Loan amortisation engine, modelled in Dafny

This project models the amortisation engine of a small loan-schedule
service. It has two halves:

- **Loan creation.** This half turns a loan's terms into an installment
  schedule. The terms are an amount, a start date, a number of payments, a
  periodicity code such as `"3m"` and an annual interest rate. The first
  step is a level payment (the EMI). Each installment then charges interest
  on the balance still owed before it and repays the EMI minus that
  interest. The last installment repays whatever is left.
- **Adjustment.** This half reduces one installment's principal and then
  re-walks the whole schedule from the loan amount. The walk reduces that
  installment a second time and recomputes interest from it onwards.

The input rules of the two serializers sit in front of the engine: the
interest-rate and periodicity validators, and the reduction check.

Representation:

- Money is a whole number of cents (`int`). `Rounding.Money` reads it as a
  real.
- `quantize_money` is `Rounding.Quantize`: half-up rounding (ties away from
  zero) of an exact real to cents.
- Interest rates are whole numbers of ten-thousandths (four decimals).
- Period lengths, per-period rates and the annuity formula are exact reals.
- Dates are proleptic Gregorian `Calendar.Date`s.
- The `relativedelta` offsets are `Calendar.RelDelta` values:
  - Applying one adds years and months, then clamps the day to the end of
    the month, then adds days. This is the order dateutil uses.
  - Weeks become seven days.
  - Months above 11 carry into years, as in dateutil's normalisation.
- Errors are values in `Results.Result`:
  - A malformed periodicity gives `InvalidPeriodicity` with one of the
    parser's three reasons.
  - A level-payment formula whose denominator is zero gives `DecimalError`.
    This happens when `(1 + i)^(-n)` is 1. The model's reals have no
    exponent limit, so the service's `decimal.Overflow` is not among the
    causes (see "Left out").
  - At a per-period rate of -1, `0 ** -n` is Infinity in decimal
    arithmetic and raises nothing, so the EMI is 0.00.
  - A rejected reduction gives `NegativeReduction` or
    `ReductionExceedsPrincipal`.

Modules and what each covers:

- `Rounding`: `quantize_money` and four-decimal rate rounding.
- `Calendar`: dates and the `relativedelta` arithmetic.
- `Periodicity`: `parse_periodicity`, `get_period_length` and
  `next_due_date`.
- `Annuity`: the level-payment formula and the balance recurrence it
  solves.
- `Loans`: the stored records and the per-period rate.
- `Schedule`: `calculate_emi` and `create_payments`.
- `Adjustment`: `recalculate_interests` and `adjust_payment`.
- `Serializers`: the validators and `PaymentAdjustmentSerializer.save`.

`loans/serializers.py` carries copies of `quantize_money`,
`parse_periodicity`, `get_period_length`, `next_due_date` and
`recalculate_interests`:

- The copies are token-for-token identical to the ones in
  `loans/services.py`.
- Each is modelled once by the member that models the `loans/services.py`
  version:
  - lines 12-13 by `Rounding.Quantize`;
  - lines 16-27 by `Periodicity.Parse`;
  - lines 30-45 by `Periodicity.GetPeriodLength`;
  - lines 48-58 by `Periodicity.NextDueDate`;
  - lines 117-144 by `Adjustment.RecalculateInterests` and
    `Adjustment.Cascade`.
- `calculate_emi` and `create_payments` use the same per-period rate. Both
  compute it with `Loans.RatePerPeriod`, and their contracts state it as
  `Loans.PerPeriodRate`.
- The adjustment serializer's `save` is `adjust_payment` with the same
  statements. `Serializers.ValidateAndSave` is proved to return exactly
  what `Adjustment.AdjustPayment` returns once the reduction is accepted.

## Model

| member | source | states |
|---|---|---|
| Rounding.Quantize | loans/services.py:11-12 | the result is the nearest cent: within half a cent of the input, with ties going away from zero for both signs |
| Rounding.QuantizeExact | loans/services.py:11-12 | a value that already has two decimals is returned unchanged |
| Rounding.QuantizeIdempotent | loans/services.py:11-12 | rounding a rounded value changes nothing |
| Rounding.QuantizeTiesAwayFromZero | loans/services.py:11-12 | k.5 cents rounds to k+1 cents, and -k.5 cents to -(k+1) cents |
| Rounding.QuantizeMonotonic | loans/services.py:11-12 | rounding preserves order |
| Rounding.QuantizeNonNegative | loans/services.py:11-12 | a non-negative value never rounds below zero |
| Rounding.QuantizeRate | loans/serializers.py:92 | rounding to four decimals gives the nearest ten-thousandth, ties away from zero |
| Rounding.QuantizeRateExact | loans/serializers.py:92 | a rate that already has four decimals is unchanged |
| Periodicity.Parse | loans/services.py:15-26 | on success the count is at least 1; the input is a digit string with that value followed by the unit's letter |
| Periodicity.ParseErrors | loans/services.py:16-25 | the three rejections, each as an if-and-only-if: fewer than 2 characters; a non-digit count or a unit outside d/w/m/y; an all-zero count |
| Periodicity.ParseFormat | loans/services.py:18-26 | for every count n >= 1, every unit and any leading zeros, the decimal n followed by the unit letter parses back to (n, unit) |
| Periodicity.ParseCanonical | loans/services.py:18-26 | every accepted code is its parsed value written in decimal after some leading zeros, so parsing is injective up to leading zeros |
| Periodicity.ParseExamples | loans/services.py:15-26 | "1d", "2w", "3m", "1y" and "12m" parse; "" and "m" are malformed; "3x" and "am" mismatch the pattern; "0m" and "00d" are non-positive |
| Periodicity.PeriodLength | loans/services.py:36-43 | a period of positive count has a positive length in years |
| Periodicity.PeriodLengthLinear | loans/services.py:36-43 | the length of count periods is count times the length of one period of the unit |
| Periodicity.GetPeriodLength | loans/services.py:29-45 | succeeds exactly when the code parses, the length is then > 0, and otherwise the parser's error comes out, so the final unsupported-unit error cannot be reached |
| Periodicity.DueOffset | loans/services.py:50-57 | every unit binds a normalised offset, and that offset is non-zero for a positive count |
| Periodicity.NextDueDate | loans/services.py:47-57 | succeeds exactly when the code parses, yields a normalised offset, and otherwise propagates the parser's error |
| Periodicity.DueOffsetEffect | loans/services.py:50-57 | the offset always moves a date strictly later. d adds exactly count days and w exactly 7·count days; m and y move count months or years and clamp the day to the month's end |
| Calendar.RelativeDelta | loans/services.py:50-56 | a constructed offset is normalised: months above 11 carry into years and weeks become seven days each |
| Calendar.Apply | loans/views.py:46 | adding an offset to a valid date gives a valid date |
| Calendar.ApplyDays | loans/services.py:50 | a days-only offset moves the day number by exactly that many days |
| Calendar.ApplyWeeks | loans/services.py:52 | a weeks offset moves the day number by exactly 7 days per week |
| Calendar.ApplyMonths | loans/services.py:54 | a months offset moves the month index by exactly that many months and clamps the day to the new month's length |
| Calendar.ApplyYears | loans/services.py:56 | a years offset keeps the month, moves the year, and clamps the day (29 February to 28 February) |
| Calendar.ApplyAdvances | loans/views.py:46 | a non-zero offset moves a valid date strictly later |
| Calendar.MonthOffsetsCompound | loans/views.py:46-47 | concrete due dates: monthly from 2024-01-10, a year after 2024-02-29, and a week after 2024-12-30. Compounding from 31 January gives 29 March, not the 31 March a direct two-month step gives |
| Annuity.BalanceClosedForm | loans/views.py:33 | in closed form, the balance after k level payments, scaled by the rate and less one payment, compounds like the principal: `i B_k - e = (i p - e)(1+i)^k` |
| Annuity.LevelPaymentRetiresLoan | loans/views.py:33 | the exact level payment `iP / (1 - (1+i)^-n)` leaves nothing owed after n periods |
| Annuity.ZeroRateRetiresLoan | loans/views.py:30-31 | at rate zero, paying P/n for n periods leaves nothing owed |
| Annuity.PowAboveOne | loans/views.py:33 | for a positive per-period rate and at least one period, `(1+i)^n > 1`, so the formula's denominator is never zero |
| Loans.PerPeriodRate | loans/services.py:65-66 | the per-period rate is the annual rate times the period length. It is zero or positive exactly when the annual rate is, and a parse failure propagates |
| Schedule.CalculateEmi | loans/views.py:22-34 | a zero rate gives P/n rounded half up to the cent, so within half a cent of P/n. A positive rate always gives a result. A rate of -1 gives 0.00. Otherwise the result exists exactly when `(1+i)^n` is not 1, and the only failure is the decimal error |
| Schedule.CalculateEmiZeroRateTies | loans/views.py:30-31 | at a zero rate an exact half cent of P/n rounds away from zero: 1 cent over 2 payments is 0.01, -1 cent is -0.01, and 5 cents is 0.03 |
| Schedule.EmiRetiresLoan | loans/views.py:33-34 | the rounded EMI is within half a cent of the exact level payment, and the exact one retires the loan in n periods |
| Schedule.Installments | loans/views.py:44-67 | the generator emits one installment per remaining index, with consecutive sequence numbers, and its principals add up to the balance it starts from |
| Schedule.InstallmentsInterest | loans/views.py:48-49 | each generated installment charges the rounded rate times the balance it receives. The next one receives that balance less the installment's principal |
| Schedule.InterestChainBalance | loans/views.py:48-67 | the recurrence of interest on a running balance implies the closed rule. Every installment's interest is the rounded rate times the starting balance less the principals before it |
| Schedule.InstallmentsPrincipal | loans/views.py:51 | every installment but the last repays the EMI minus its interest |
| Schedule.FinalPlug | loans/views.py:53-54 | the last installment's principal is exactly the balance still owed before it |
| Schedule.InstallmentsDueDates | loans/views.py:43-47 | every due date is valid; the first is one offset after the seed date, and each later one is one offset after its predecessor |
| Schedule.InstallmentsValidDates | loans/views.py:46 | every generated due date is a valid calendar date |
| Schedule.CreatePayments | loans/views.py:36-69 | a created schedule has N installments with sequence numbers 1..N whose principals sum exactly to the loan amount. A bad periodicity yields its parse error. A parsed periodicity with a rate ≥ 0 always yields a schedule; in general one exists exactly when the rate is 0 or `(1+i)^N` is not 1. The decimal error is the only other failure |
| Schedule.CreatePaymentsDueDates | loans/views.py:43-47 | the due dates start one offset after the start date, compound from each other, and are strictly increasing |
| Schedule.CreatePaymentsAmounts | loans/views.py:48-67 | interest is charged on what is still owed and non-final principals are EMI minus interest. The last principal is the remainder, so the remaining balance ends at zero |
| Schedule.CreatePaymentsZeroRate | loans/views.py:30-31 | with a zero rate every interest is 0.00 and every non-final principal is P/N rounded to cents |
| Adjustment.Cascade | loans/services.py:68-87 | the walk keeps the order, sequence numbers and due dates. It leaves interest before the changed sequence alone, changes no principal but the changed one, and floors that one at principal − reduction or 0 |
| Adjustment.CascadeInterest | loans/services.py:78-87 | from the changed sequence on, interest is the rounded rate times the balance re-walked from the loan amount with the updated principals, floored at zero at each step |
| Adjustment.OutstandingNonNegative | loans/services.py:87 | the re-walked outstanding balance never drops below zero |
| Adjustment.CascadeInterestNonNegative | loans/services.py:79-84 | with a non-negative rate and amount, every recomputed interest is non-negative |
| Adjustment.RecalculateInterests | loans/services.py:60-87 | succeeds exactly when the loan's periodicity parses, keeps the schedule's length, and otherwise reports the parse error |
| Adjustment.ReducePrincipal | loans/services.py:92 | step one lowers the principal by exactly the reduction, with no floor |
| Adjustment.AdjustPayment | loans/services.py:90-95 | the returned in-memory payment has seen only the first reduction. In the stored schedule the changed installment's principal is max(0, p − 2r), and other principals and earlier interest are untouched. A failure is the parse error |
| Adjustment.AdjustPaymentInterests | loans/services.py:79-84 | after an adjustment, interest from the changed installment on is charged on the re-walked balance, and is non-negative when the rate and amount are |
| Adjustment.AdjustPaymentDoubleReduction | loans/services.py:73-76 | the changed principal equals `quantize(max(0, quantize(p − r) − r))`. For 0 ≤ r ≤ p it lies in [0, p], and it is p − 2r whenever 2r ≤ p |
| Serializers.ValidateInterestRate | loans/serializers.py:86-92 | a rate of at most 1 is kept as is. A rate above 1 is read as a percentage, and the result is that percentage as a fraction, rounded to four decimals and strictly smaller |
| Serializers.ValidateInterestRatePercentage | loans/serializers.py:89-92 | a percentage above 1 with at most two decimals becomes exactly that fraction |
| Serializers.ValidateInterestRateIdempotent | loans/serializers.py:86-92 | a rate of at most 100 validates to a fraction of at most 1, which validates to itself |
| Serializers.ValidateInterestRateExamples | loans/serializers.py:86-92 | 100 gives 1.0000, 1 stays 1.0000, 0.1 gives 0.1000, and 12.5 gives 0.1250 |
| Serializers.ValidatePeriodicity | loans/serializers.py:79-81 | the input comes back unchanged exactly when it parses; otherwise the parser's error |
| Serializers.ValidatePeriodicityFormat | loans/serializers.py:79-81 | every canonically written periodicity is accepted unchanged |
| Serializers.ValidateReduction | loans/serializers.py:96-105 | accepts exactly 0 ≤ reduction ≤ principal. A negative reduction fails the field's lower bound; one above the principal fails the object check |
| Serializers.ValidateAndSave | loans/serializers.py:107-114 | succeeds exactly when the reduction is accepted and the periodicity parses, and then equals `adjust_payment`. A rejected reduction is reported before anything changes |
| Serializers.ValidateAndSaveBounds | loans/serializers.py:107-114 | after a validated save the changed principal is between 0 and its old value, and the returned payment holds principal − reduction ≥ 0 |

## Left out

- A `None` periodicity: the model takes strings only. Its rejection at loans/services.py:16 is the same error as the empty string's.
- Python `Decimal`'s 28-significant-digit context:
  - Period lengths, per-period rates, and the products and quotients built from them are exact reals.
  - A result can therefore differ from the service's in the 28th digit before cents rounding.
  - The context's exponent limit (`Emax` 999999, with `Overflow` trapped) is not modelled either. Schedule.CalculateEmi names the one place where it changes the outcome.
- The fractional power `(1 + i) ** Decimal(-n)`: it is modelled as `1 / (1 + i)^n` for a whole n.
- Dates past year 9999: the calendar model is unbounded. There Python's months or years step raises `ValueError` from `date.replace`, and a days or weeks step raises `OverflowError`.
- Unicode digits that `str.isdigit` accepts: only `'0'..'9'` count as digits.
- Input parsing of decimals and dates (`max_digits`, `decimal_places`, `input_formats`):
  - Amounts arrive as cents and rates as ten-thousandths.
  - The model field's narrower bound on the rate (five digits, loans/models.py:10) is not enforced.
- `validate_loan_start_date` is the identity and is not modelled.
- HTTP and ORM plumbing are not modelled:
  - views `create`, `post`, `perform_create` and `get_payment`;
  - the `NotFound` error;
  - response shaping, `bulk_create` and `save(update_fields=…)`.
  - A schedule is a sequence ordered by sequence number.
- Transactions and row locks: each operation is one pure transition. A failed adjustment returns an error and no schedule, as the rolled-back transaction leaves the stored rows unchanged.
- Schedule.CreatePayments: parses the periodicity once, where the view parses it three times (`calculate_emi`, `get_period_length`, `next_due_date`). Parsing is pure, so the result is the same.
- Schedule.CreatePayments: requires at least one payment and a valid start date. The creation serializer guarantees both (`min_value=1`, `DateField`).
- Schedule.CreatePayments: drops the final `emi` reassignment at loans/views.py:55. No later statement reads that value.
- Schedule.CalculateEmi: does not model the `Decimal` exponent limit at loans/views.py:33. When `0 < |1 + i| < 1` and n is large enough that `(1 + i)^(-n)` reaches `10^1000000`, the power raises `decimal.Overflow` and no EMI or schedule is made. The model has no limit and returns an EMI there. An example is a rate of -0.9999 with periodicity "1y" and 250001 payments. The creation serializer accepts both fields. The boundary depends on 28-digit rounding, which is also not modelled.
- Schedule.CalculateEmi: its own contract states when a non-zero rate yields an EMI, not what the EMI is. Schedule.EmiRetiresLoan states that value to within half a cent of the exact level payment rather than as the literal rounded formula.

=== FILE: adjustment.dfy ===
/** The adjustment engine (`adjust_payment` and `recalculate_interests`):
    reduce one installment's principal, then re-walk the whole schedule from
    the loan amount, reducing that installment's principal a second time and
    recomputing interest from the changed installment onwards. */
module Adjustment {
  import opened Results
  import opened Rounding
  import opened Loans
  import Periodicity

  function Max(a: int, b: int): int {
    if a >= b then a else b
  }

  /** The balance left after walking `ps` from `balance`: each installment's
      principal is subtracted and the balance never drops below zero. */
  function Outstanding(balance: int, ps: seq<Payment>): int
    decreases |ps|
  {
    if ps == [] then balance else Outstanding(Max(0, balance - ps[0].principal), ps[1..])
  }

  /** What the re-walk may change in installment `p` to give `q`: sequence
      number and due date stay; interest before the changed sequence stays;
      only the changed installment's principal moves, to the reduction
      floored at zero. */
  predicate Reworked(p: Payment, q: Payment, changed: nat, reduction: int) {
    && q.sequence == p.sequence
    && q.dueDate == p.dueDate
    && (p.sequence < changed ==> q.interest == p.interest)
    && q.principal == (if p.sequence == changed then Max(0, p.principal - reduction) else p.principal)
  }

  /** The loop of `recalculate_interests` over the installments in sequence
      order, from the balance `outstanding`: the installment with sequence
      `changed` has `reduction` taken off its principal (floored at zero);
      installments from `changed` on get interest on the balance owed before
      them; the balance then drops by the installment's principal, floored
      at zero. */
  function Cascade(ps: seq<Payment>, outstanding: int, rate: real, changed: nat, reduction: int): (r: seq<Payment>)
    ensures |r| == |ps|
    ensures forall j :: 0 <= j < |ps| ==> Reworked(ps[j], r[j], changed, reduction)
    decreases |ps|
  {
    if ps == [] then []
    else
      var p := ps[0];
      var floored := Max(0, p.principal - reduction);
      QuantizeExact(floored);
      var principal := if p.sequence == changed then Quantize(Money(floored)) else p.principal;
      var interest := InterestOn(outstanding, rate);
      var updated := p.(principal := principal, interest := if p.sequence >= changed then interest else p.interest);
      var rest := Cascade(ps[1..], Max(0, outstanding - principal), rate, changed, reduction);
      [updated] + rest
  }

  /** Every installment of `r` from sequence `changed` on charges interest
      on the floored balance owed before it, starting from `balance`. */
  predicate InterestOnOutstanding(r: seq<Payment>, balance: int, rate: real, changed: nat) {
    forall j :: 0 <= j < |r| && r[j].sequence >= changed ==>
      r[j].interest == InterestOn(Outstanding(balance, r[..j]), rate)
  }

  lemma CascadeUnfold(ps: seq<Payment>, outstanding: int, rate: real, changed: nat, reduction: int, r: seq<Payment>)
    requires ps != [] && r == Cascade(ps, outstanding, rate, changed, reduction)
    ensures |r| == |ps|
    ensures r[1..] == Cascade(ps[1..], Max(0, outstanding - r[0].principal), rate, changed, reduction)
    ensures r[0].sequence >= changed ==> r[0].interest == InterestOn(outstanding, rate)
  {
    if ps[0].sequence == changed {
      QuantizeExact(Max(0, ps[0].principal - reduction));
    }
  }

  /** Interest from the changed installment on is recomputed on the balance
      re-walked with the new principals. */
  lemma {:induction false} CascadeInterest(ps: seq<Payment>, outstanding: int, rate: real, changed: nat,
                                           reduction: int, r: seq<Payment>)
    requires r == Cascade(ps, outstanding, rate, changed, reduction)
    ensures InterestOnOutstanding(r, outstanding, rate, changed)
    decreases |ps|
  {
    if ps != [] {
      CascadeUnfold(ps, outstanding, rate, changed, reduction, r);
      CascadeInterest(ps[1..], Max(0, outstanding - r[0].principal), rate, changed, reduction, r[1..]);
      OutstandingStep(r, outstanding, rate, changed);
    }
  }

  /** One step of the walk: a head charged on `outstanding` and a tail that
      follows the walk from the reduced balance make a schedule that follows
      it from `outstanding`. */
  lemma OutstandingStep(r: seq<Payment>, outstanding: int, rate: real, changed: nat)
    requires r != []
    requires r[0].sequence >= changed ==> r[0].interest == InterestOn(outstanding, rate)
    requires InterestOnOutstanding(r[1..], Max(0, outstanding - r[0].principal), rate, changed)
    ensures InterestOnOutstanding(r, outstanding, rate, changed)
  {
    forall j | 0 <= j < |r| && r[j].sequence >= changed
      ensures r[j].interest == InterestOn(Outstanding(outstanding, r[..j]), rate)
    {
      if j == 0 {
        assert r[..0] == [];
      } else {
        var prefix := r[..j];
        assert prefix[0] == r[0] && prefix[1..] == r[1..][..j - 1];
        assert r[j] == r[1..][j - 1];
      }
    }
  }

  /** The walked balance is never negative once at least one installment has
      been subtracted, or when it starts non-negative. */
  lemma {:induction false} OutstandingNonNegative(balance: int, ps: seq<Payment>)
    requires balance >= 0 || ps != []
    ensures Outstanding(balance, ps) >= 0
    decreases |ps|
  {
    if ps != [] {
      OutstandingNonNegative(Max(0, balance - ps[0].principal), ps[1..]);
    }
  }

  /** With a non-negative rate and loan amount, every recomputed interest is
      non-negative. */
  lemma CascadeInterestNonNegative(ps: seq<Payment>, outstanding: int, rate: real, changed: nat,
                                   reduction: int, r: seq<Payment>)
    requires outstanding >= 0 && rate >= 0.0
    requires r == Cascade(ps, outstanding, rate, changed, reduction)
    ensures forall j :: 0 <= j < |r| && r[j].sequence >= changed ==> r[j].interest >= 0
  {
    CascadeInterest(ps, outstanding, rate, changed, reduction, r);
    forall j | 0 <= j < |r| && r[j].sequence >= changed
      ensures r[j].interest >= 0
    {
      var b := Outstanding(outstanding, r[..j]);
      OutstandingNonNegative(outstanding, r[..j]);
      assert Money(b) * rate >= 0.0;
      QuantizeNonNegative(Money(b) * rate);
    }
  }

  /** `recalculate_interests`: the per-period rate from the loan's stored
      periodicity and rate, then the cascade from the loan amount. */
  function RecalculateInterests(loan: Loan, ps: seq<Payment>, changed: Payment, reduction: int): (r: Result<seq<Payment>, EngineError>)
    ensures r.Success? <==> Periodicity.Parse(loan.periodicity).Success?
    ensures r.Failure? ==> r.error == InvalidPeriodicity(Periodicity.Parse(loan.periodicity).error)
    ensures r.Success? ==> |r.value| == |ps|
  {
    match PerPeriodRate(loan)
    case Failure(e) => Failure(e)
    case Success(rate) => Success(Cascade(ps, loan.amount, rate, changed.sequence, reduction))
  }

  /** What an adjustment returns: the in-memory payment object (which has
      seen only the first reduction) and the stored schedule afterwards. */
  datatype Adjusted = Adjusted(payment: Payment, schedule: seq<Payment>)

  /** `save(update_fields=["principal"])` of `p`: the stored row with `p`'s
      sequence takes `p`'s principal, nothing else changes. */
  function StorePrincipal(ps: seq<Payment>, p: Payment): (r: seq<Payment>)
    ensures |r| == |ps|
    ensures forall j :: 0 <= j < |ps| && ps[j].sequence != p.sequence ==> r[j] == ps[j]
    ensures forall j :: 0 <= j < |ps| && ps[j].sequence == p.sequence ==> r[j] == ps[j].(principal := p.principal)
  {
    seq(|ps|, j requires 0 <= j < |ps| => if ps[j].sequence == p.sequence then ps[j].(principal := p.principal) else ps[j])
  }

  /** Step one of `adjust_payment`: the principal reduced by `reduction`,
      quantized, with no floor. */
  function ReducePrincipal(payment: Payment, reduction: int): (r: Payment)
    ensures r == payment.(principal := payment.principal - reduction)
  {
    QuantizeExact(payment.principal - reduction);
    payment.(principal := Quantize(Money(payment.principal - reduction)))
  }

  /** `adjust_payment`: step one reduces the payment's principal (without a
      floor) and stores it; step two runs the cascade over the stored
      schedule, which reduces the same installment again (with a floor). A
      failure leaves the stored schedule as it was. */
  function AdjustPayment(loan: Loan, ps: seq<Payment>, payment: Payment, reduction: int): (r: Result<Adjusted, EngineError>)
    ensures r.Success? <==> Periodicity.Parse(loan.periodicity).Success?
    ensures r.Failure? ==> r.error == InvalidPeriodicity(Periodicity.Parse(loan.periodicity).error)
    ensures r.Success? ==> r.value.payment == payment.(principal := payment.principal - reduction)
    ensures r.Success? ==> |r.value.schedule| == |ps|
    ensures r.Success? ==> forall j :: 0 <= j < |ps| ==>
      r.value.schedule[j].sequence == ps[j].sequence && r.value.schedule[j].dueDate == ps[j].dueDate
    ensures r.Success? ==> forall j :: 0 <= j < |ps| && ps[j].sequence == payment.sequence ==>
      r.value.schedule[j].principal == Max(0, payment.principal - 2 * reduction)
    ensures r.Success? ==> forall j :: 0 <= j < |ps| && ps[j].sequence != payment.sequence ==>
      r.value.schedule[j].principal == ps[j].principal
    ensures r.Success? ==> forall j :: 0 <= j < |ps| && ps[j].sequence < payment.sequence ==>
      r.value.schedule[j].interest == ps[j].interest
  {
    var reduced := ReducePrincipal(payment, reduction);
    var stored := StorePrincipal(ps, reduced);
    var schedule :- RecalculateInterests(loan, stored, reduced, reduction);
    Success(Adjusted(reduced, schedule))
  }

  lemma AdjustPaymentUnfold(loan: Loan, ps: seq<Payment>, payment: Payment, reduction: int, adjusted: Adjusted)
    requires AdjustPayment(loan, ps, payment, reduction) == Success(adjusted)
    ensures PerPeriodRate(loan).Success?
    ensures adjusted.schedule == Cascade(StorePrincipal(ps, ReducePrincipal(payment, reduction)), loan.amount,
                                         PerPeriodRate(loan).value, payment.sequence, reduction)
  {
  }

  /** After an adjustment, every installment from the changed one on charges
      interest on the balance re-walked from the loan amount with the new
      principals, floored at zero; with a non-negative rate and amount that
      interest is non-negative. */
  lemma AdjustPaymentInterests(loan: Loan, ps: seq<Payment>, payment: Payment, reduction: int, adjusted: Adjusted)
    requires AdjustPayment(loan, ps, payment, reduction) == Success(adjusted)
    ensures PerPeriodRate(loan).Success?
    ensures InterestOnOutstanding(adjusted.schedule, loan.amount, PerPeriodRate(loan).value, payment.sequence)
    ensures loan.amount >= 0 && loan.interestRate >= 0 ==>
      forall j :: 0 <= j < |adjusted.schedule| && adjusted.schedule[j].sequence >= payment.sequence ==>
        adjusted.schedule[j].interest >= 0
  {
    AdjustPaymentUnfold(loan, ps, payment, reduction, adjusted);
    var rate := PerPeriodRate(loan).value;
    var stored := StorePrincipal(ps, ReducePrincipal(payment, reduction));
    CascadeInterest(stored, loan.amount, rate, payment.sequence, reduction, adjusted.schedule);
    if loan.amount >= 0 && loan.interestRate >= 0 {
      assert rate >= 0.0;
      CascadeInterestNonNegative(stored, loan.amount, rate, payment.sequence, reduction, adjusted.schedule);
    }
  }

  /** The changed installment's principal, in the terms the reduction is
      applied: `quantize(max(0, quantize(p - r) - r))`; for a reduction the
      serializer accepts (0 <= r <= p) it lies between 0 and the original
      principal, and is exactly `p - 2 r` unless that is negative. */
  lemma AdjustPaymentDoubleReduction(loan: Loan, ps: seq<Payment>, payment: Payment, reduction: int,
                                     adjusted: Adjusted, j: nat)
    requires AdjustPayment(loan, ps, payment, reduction) == Success(adjusted)
    requires j < |ps| && ps[j].sequence == payment.sequence
    ensures adjusted.schedule[j].principal
      == Quantize(Money(Max(0, Quantize(Money(payment.principal - reduction)) - reduction)))
    ensures 0 <= reduction <= payment.principal ==> 0 <= adjusted.schedule[j].principal <= payment.principal
    ensures 2 * reduction <= payment.principal ==> adjusted.schedule[j].principal == payment.principal - 2 * reduction
  {
    QuantizeExact(payment.principal - reduction);
    QuantizeExact(Max(0, payment.principal - 2 * reduction));
  }
}

=== FILE: annuity.dfy ===
/** The level-payment (EMI) formula `i P / (1 - (1 + i)^(-n))` in exact
    arithmetic, and the fact that makes it the right amount: paying it every
    period retires the loan exactly after `n` periods. */
module Annuity {

  /** `b` raised to the natural power `n`. */
  function Pow(b: real, n: nat): real
    decreases n
  {
    if n == 0 then 1.0 else b * Pow(b, n - 1)
  }

  /** The formula can be evaluated: `(1 + i)^(-n)` exists and the
      denominator is not zero. */
  predicate Defined(i: real, n: nat) {
    Pow(1.0 + i, n) != 0.0 && Pow(1.0 + i, n) != 1.0
  }

  /** For a positive rate, compounding over at least one period grows:
      `(1 + i)^n > 1`, so the formula is always defined. */
  lemma {:induction false} PowAboveOne(i: real, n: nat)
    ensures i > 0.0 && n >= 1 ==> Pow(1.0 + i, n) > 1.0
    decreases n
  {
    if i > 0.0 && n > 1 {
      PowAboveOne(i, n - 1);
      assert Pow(1.0 + i, n) == (1.0 + i) * Pow(1.0 + i, n - 1);
    }
  }

  /** The unrounded level payment for principal `p`, per-period rate `i`
      and `n` periods. */
  function LevelPayment(p: real, i: real, n: nat): real
    requires Defined(i, n)
  {
    i * p / (1.0 - 1.0 / Pow(1.0 + i, n))
  }

  /** The balance after `k` periods of accruing interest at `i` and paying
      `e` each period. */
  function Balance(p: real, i: real, e: real, k: nat): real
    decreases k
  {
    if k == 0 then p else Balance(p, i, e, k - 1) * (1.0 + i) - e
  }

  /** `i B_k - e = (i p - e) (1+i)^k`: the balance scaled by the rate,
      less one payment, compounds like the principal. */
  lemma {:induction false} BalanceClosedForm(p: real, i: real, e: real, k: nat)
    ensures i * Balance(p, i, e, k) - e == (i * p - e) * Pow(1.0 + i, k)
    decreases k
  {
    if k > 0 {
      BalanceUnfold(p, i, e, k);
      BalanceClosedForm(p, i, e, k - 1);
      BalanceStep(i * p - e, i, e, Pow(1.0 + i, k - 1), Balance(p, i, e, k - 1), Pow(1.0 + i, k), Balance(p, i, e, k));
    }
  }

  /** One period of the recurrences for the growth factor and the balance. */
  lemma BalanceUnfold(p: real, i: real, e: real, k: nat)
    requires k > 0
    ensures Pow(1.0 + i, k) == (1.0 + i) * Pow(1.0 + i, k - 1)
    ensures Balance(p, i, e, k) == Balance(p, i, e, k - 1) * (1.0 + i) - e
  {
  }

  /** One period of the induction above, on plain values. */
  lemma BalanceStep(c: real, i: real, e: real, q: real, b: real, q': real, b': real)
    requires i * b - e == c * q
    requires q' == (1.0 + i) * q && b' == b * (1.0 + i) - e
    ensures i * b' - e == c * q'
  {
    calc {
      i * b' - e;
      i * (b * (1.0 + i) - e) - e;
      (1.0 + i) * (i * b - e);
      (1.0 + i) * (c * q);
    }
  }

  /** Paying the exact level payment every period leaves nothing owing
      after the last period. */
  lemma LevelPaymentRetiresLoan(p: real, i: real, n: nat)
    requires i != 0.0 && Defined(i, n)
    ensures Balance(p, i, LevelPayment(p, i, n), n) == 0.0
  {
    var q, e := Pow(1.0 + i, n), LevelPayment(p, i, n);
    BalanceClosedForm(p, i, e, n);
    assert i * Balance(p, i, e, n) == i * p * q - e * (q - 1.0);
    assert e * (1.0 - 1.0 / q) == i * p;
    assert e * (q - 1.0) == i * p * q by {
      calc {
        e * (q - 1.0);
        q * (e * (1.0 - 1.0 / q));
        q * (i * p);
      }
    }
    assert i * Balance(p, i, e, n) == 0.0;
  }

  /** With no interest the loan is retired by `n` equal payments of `p / n`. */
  lemma ZeroRateRetiresLoan(p: real, n: nat)
    requires n >= 1
    ensures Balance(p, 0.0, p / n as real, n) == 0.0
  {
    ZeroRateBalance(p, p / n as real, n);
  }

  lemma {:induction false} ZeroRateBalance(p: real, e: real, k: nat)
    ensures Balance(p, 0.0, e, k) == p - k as real * e
    decreases k
  {
    if k > 0 {
      ZeroRateBalance(p, e, k - 1);
    }
  }
}

=== FILE: calendar.dfy ===
/** Calendar dates (proleptic Gregorian, as Python's `date`) and the
    `relativedelta` offsets the schedule adds to them: years and months are
    applied first with the day clamped to the end of the month, then a
    number of days. */
module Calendar {

  datatype Date = Date(year: int, month: int, day: int)

  predicate IsLeapYear(y: int) {
    y % 4 == 0 && (y % 100 != 0 || y % 400 == 0)
  }

  function DaysInMonth(y: int, m: int): (n: int)
    requires 1 <= m <= 12
    ensures 28 <= n <= 31
  {
    if m == 2 then (if IsLeapYear(y) then 29 else 28)
    else if m == 4 || m == 6 || m == 9 || m == 11 then 30
    else 31
  }

  predicate Valid(d: Date) {
    1 <= d.year && 1 <= d.month <= 12 && 1 <= d.day <= DaysInMonth(d.year, d.month)
  }

  /** Chronological order of two dates. */
  predicate Before(a: Date, b: Date) {
    a.year < b.year
    || (a.year == b.year && (a.month < b.month || (a.month == b.month && a.day < b.day)))
  }

  function Min(a: int, b: int): int {
    if a <= b then a else b
  }

  /** Number of days in the year before the first day of month `m`. */
  function DaysBeforeMonth(y: int, m: int): int
    requires 1 <= m <= 12
  {
    var leap := if IsLeapYear(y) && m > 2 then 1 else 0;
    leap + (if m == 1 then 0 else if m == 2 then 31 else if m == 3 then 59
            else if m == 4 then 90 else if m == 5 then 120 else if m == 6 then 151
            else if m == 7 then 181 else if m == 8 then 212 else if m == 9 then 243
            else if m == 10 then 273 else if m == 11 then 304 else 334)
  }

  function DaysInYear(y: int): int {
    if IsLeapYear(y) then 366 else 365
  }

  function DaysBeforeYear(y: int): int
    requires y >= 1
    decreases y
  {
    if y == 1 then 0 else DaysBeforeYear(y - 1) + DaysInYear(y - 1)
  }

  /** Day number counted from 0001-01-01 (which is day 1), as `date.toordinal`. */
  function Ordinal(d: Date): int
    requires Valid(d)
  {
    DaysBeforeYear(d.year) + DaysBeforeMonth(d.year, d.month) + d.day
  }

  /** Months counted from January of year 0. */
  function MonthIndex(d: Date): int {
    d.year * 12 + d.month - 1
  }

  function NextDay(d: Date): (r: Date)
    requires Valid(d)
    ensures Valid(r) && Before(d, r)
  {
    if d.day < DaysInMonth(d.year, d.month) then d.(day := d.day + 1)
    else if d.month < 12 then Date(d.year, d.month + 1, 1)
    else Date(d.year + 1, 1, 1)
  }

  /** `d + timedelta(days=n)`. */
  function AddDays(d: Date, n: nat): (r: Date)
    requires Valid(d)
    ensures Valid(r)
    ensures n == 0 ==> r == d
    ensures n > 0 ==> Before(d, r)
    decreases n
  {
    if n == 0 then d else AddDays(NextDay(d), n - 1)
  }

  /** A `relativedelta` after its constructor's normalisation: whole years
      carried out of the month field, weeks folded into days. */
  datatype RelDelta = RelDelta(years: nat, months: nat, days: nat)

  predicate Normalized(delta: RelDelta) {
    delta.months <= 11
  }

  /** `relativedelta(years=.., months=.., weeks=.., days=..)`. */
  function RelativeDelta(years: nat, months: nat, weeks: nat, days: nat): (r: RelDelta)
    ensures Normalized(r)
    ensures r.years * 12 + r.months == years * 12 + months
    ensures r.days == days + 7 * weeks
  {
    if months > 11 then RelDelta(years + months / 12, months % 12, days + 7 * weeks)
    else RelDelta(years, months, days + 7 * weeks)
  }

  /** `d + delta`: years and months first, the day clamped to the length of
      the month reached, then the days. */
  function Apply(d: Date, delta: RelDelta): (r: Date)
    requires Valid(d) && Normalized(delta)
    ensures Valid(r)
  {
    var y := d.year + delta.years;
    var m := d.month + delta.months;
    var year := if m > 12 then y + 1 else y;
    var month := if m > 12 then m - 12 else m;
    AddDays(Date(year, month, Min(DaysInMonth(year, month), d.day)), delta.days)
  }

  lemma NextDayOrdinal(d: Date)
    requires Valid(d)
    ensures Ordinal(NextDay(d)) == Ordinal(d) + 1
  {
    if d.day == DaysInMonth(d.year, d.month) && d.month == 12 {
      assert DaysBeforeYear(d.year + 1) == DaysBeforeYear(d.year) + DaysInYear(d.year);
    }
  }

  /** Adding `n` days moves the day number forward by exactly `n`. */
  lemma {:induction false} AddDaysOrdinal(d: Date, n: nat)
    requires Valid(d)
    ensures Ordinal(AddDays(d, n)) == Ordinal(d) + n
    decreases n
  {
    if n > 0 {
      NextDayOrdinal(d);
      AddDaysOrdinal(NextDay(d), n - 1);
    }
  }

  /** `relativedelta(days=n)` adds exactly `n` days. */
  lemma ApplyDays(d: Date, n: nat)
    requires Valid(d)
    ensures Ordinal(Apply(d, RelativeDelta(0, 0, 0, n))) == Ordinal(d) + n
  {
    AddDaysOrdinal(d, n);
  }

  /** `relativedelta(weeks=n)` adds exactly `7 n` days. */
  lemma ApplyWeeks(d: Date, n: nat)
    requires Valid(d)
    ensures Ordinal(Apply(d, RelativeDelta(0, 0, n, 0))) == Ordinal(d) + 7 * n
  {
    AddDaysOrdinal(d, 7 * n);
  }

  /** `relativedelta(months=n)` moves `n` calendar months on and keeps the
      day of the month unless that month is shorter. */
  lemma ApplyMonths(d: Date, n: nat)
    requires Valid(d)
    ensures var r := Apply(d, RelativeDelta(0, n, 0, 0));
      MonthIndex(r) == MonthIndex(d) + n && r.day == Min(d.day, DaysInMonth(r.year, r.month))
  {
  }

  /** `relativedelta(years=n)` keeps the month and moves `n` years on, so
      29 February becomes 28 February in a common year. */
  lemma ApplyYears(d: Date, n: nat)
    requires Valid(d)
    ensures var r := Apply(d, RelativeDelta(n, 0, 0, 0));
      r.year == d.year + n && r.month == d.month && r.day == Min(d.day, DaysInMonth(r.year, d.month))
  {
  }

  /** A non-zero offset always produces a strictly later date. */
  lemma ApplyAdvances(d: Date, delta: RelDelta)
    requires Valid(d) && Normalized(delta)
    requires delta.years + delta.months + delta.days > 0
    ensures Before(d, Apply(d, delta))
  {
  }

  /** Offsets compound from the previous date rather than from the start:
      31 January plus one month is 29 February 2024, and one more month is
      29 March, not 31 March. */
  lemma MonthOffsetsCompound()
    ensures Apply(Date(2024, 1, 31), RelativeDelta(0, 1, 0, 0)) == Date(2024, 2, 29)
    ensures Apply(Apply(Date(2024, 1, 31), RelativeDelta(0, 1, 0, 0)), RelativeDelta(0, 1, 0, 0)) == Date(2024, 3, 29)
    ensures Apply(Date(2024, 1, 31), RelativeDelta(0, 2, 0, 0)) == Date(2024, 3, 31)
    ensures Apply(Date(2024, 1, 10), RelativeDelta(0, 1, 0, 0)) == Date(2024, 2, 10)
    ensures Apply(Date(2024, 2, 10), RelativeDelta(0, 1, 0, 0)) == Date(2024, 3, 10)
    ensures Apply(Date(2024, 3, 10), RelativeDelta(0, 1, 0, 0)) == Date(2024, 4, 10)
    ensures Apply(Date(2024, 4, 10), RelativeDelta(0, 1, 0, 0)) == Date(2024, 5, 10)
    ensures Apply(Date(2024, 2, 29), RelativeDelta(1, 0, 0, 0)) == Date(2025, 2, 28)
    ensures Apply(Date(2024, 12, 30), RelativeDelta(0, 0, 1, 0)) == Date(2025, 1, 6)
  {
  }
}

=== FILE: loans.dfy ===
/** The two records of the engine, as stored: a loan and its installments
    (payments). Money fields are whole cents, the interest rate is a whole
    number of ten-thousandths (four decimals). */
module Loans {
  import opened Results
  import opened Rounding
  import Calendar
  import Periodicity

  datatype Loan = Loan(
    amount: int,                // cents
    startDate: Calendar.Date,
    numberOfPayments: nat,
    periodicity: string,
    interestRate: int           // ten-thousandths, a fraction of 1 per year
  )

  /** One installment. Within a loan the sequence numbers are 1..N and the
      schedule is kept in sequence order. */
  datatype Payment = Payment(
    sequence: nat,
    dueDate: Calendar.Date,
    principal: int,             // cents
    interest: int               // cents
  )

  /** The errors the engine raises. */
  datatype EngineError =
    | InvalidPeriodicity(reason: Periodicity.PeriodicityError)
    | DecimalError              // division by zero in the level-payment formula
    | NegativeReduction         // the reduction field's lower bound of 0
    | ReductionExceedsPrincipal

  /** The rate for one period of periodicity `p`: the annual rate times
      the period's fraction of a year. */
  function RatePerPeriod(interestRate: int, p: Periodicity.Periodicity): real {
    Rate(interestRate) * Periodicity.PeriodLength(p)
  }

  /** The loan's per-period rate, or the error `get_period_length` raises
      for its periodicity. */
  function PerPeriodRate(loan: Loan): (r: Result<real, EngineError>)
    ensures r.Success? <==> Periodicity.GetPeriodLength(loan.periodicity).Success?
    ensures r.Success? ==> r.value == Rate(loan.interestRate) * Periodicity.GetPeriodLength(loan.periodicity).value
    ensures r.Success? ==> (r.value == 0.0 <==> loan.interestRate == 0)
    ensures r.Success? ==> (r.value > 0.0 <==> loan.interestRate > 0)
    ensures r.Failure? ==> r.error == InvalidPeriodicity(Periodicity.Parse(loan.periodicity).error)
  {
    match Periodicity.Parse(loan.periodicity)
    case Failure(e) => Failure(InvalidPeriodicity(e))
    case Success(p) => Success(RatePerPeriod(loan.interestRate, p))
  }

  /** Interest for one period on an outstanding balance of `balance` cents:
      `quantize_money(outstanding * rate_per_period)`. */
  function InterestOn(balance: int, rate: real): int {
    Quantize(Money(balance) * rate)
  }

  /** Sum of the principal portions. */
  function SumPrincipal(ps: seq<Payment>): int {
    if ps == [] then 0 else ps[0].principal + SumPrincipal(ps[1..])
  }

  lemma {:induction false} SumPrincipalAppend(a: seq<Payment>, b: seq<Payment>)
    ensures SumPrincipal(a + b) == SumPrincipal(a) + SumPrincipal(b)
  {
    if a != [] {
      assert (a + b)[1..] == a[1..] + b;
      SumPrincipalAppend(a[1..], b);
    } else {
      assert a + b == b;
    }
  }
}

=== FILE: periodicity.dfy ===
/** Payment frequency codes such as "3m": a decimal count followed by one
    unit letter. Parsing (`parse_periodicity`), the length of one period as
    a fraction of a year (`get_period_length`) and the calendar offset
    between two due dates (`next_due_date`). */
module Periodicity {
  import opened Results
  import Calendar

  datatype Unit = Day | Week | Month | Year

  datatype Periodicity = Periodicity(count: nat, unit: Unit)

  /** The three validation errors `parse_periodicity` raises. */
  datatype PeriodicityError = InvalidFormat | PatternMismatch | NonPositiveCount

  predicate IsDigit(c: char) {
    '0' <= c <= '9'
  }

  predicate AllDigits(s: string) {
    forall i :: 0 <= i < |s| ==> IsDigit(s[i])
  }

  function DigitValue(c: char): nat
    requires IsDigit(c)
  {
    c as int - '0' as int
  }

  function DigitChar(k: nat): (c: char)
    requires k < 10
    ensures IsDigit(c) && DigitValue(c) == k
  {
    ('0' as int + k) as char
  }

  /** `int(s)` of a string of decimal digits. */
  function DigitsValue(s: string): nat
    requires AllDigits(s)
  {
    if s == [] then 0 else DigitsValue(s[..|s| - 1]) * 10 + DigitValue(s[|s| - 1])
  }

  function UnitOf(c: char): Option<Unit> {
    if c == 'd' then Some(Day)
    else if c == 'w' then Some(Week)
    else if c == 'm' then Some(Month)
    else if c == 'y' then Some(Year)
    else None
  }

  function UnitChar(u: Unit): char {
    match u
    case Day => 'd'
    case Week => 'w'
    case Month => 'm'
    case Year => 'y'
  }

  /** `parse_periodicity`: the count is everything but the last character,
      the unit is the last character. */
  function Parse(value: string): (r: Result<Periodicity, PeriodicityError>)
    ensures r.Success? ==> r.value.count >= 1
    ensures r.Success? ==> |value| >= 2 && value[|value| - 1] == UnitChar(r.value.unit)
    ensures r.Success? ==> AllDigits(value[..|value| - 1]) && DigitsValue(value[..|value| - 1]) == r.value.count
  {
    if |value| < 2 then Failure(InvalidFormat)
    else
      var countPart, unit := value[..|value| - 1], UnitOf(value[|value| - 1]);
      if !AllDigits(countPart) || unit.None? then Failure(PatternMismatch)
      else
        var count := DigitsValue(countPart);
        if count <= 0 then Failure(NonPositiveCount)
        else Success(Periodicity(count, unit.value))
  }

  /** Decimal notation of `n` without leading zeros. */
  function Show(n: nat): (s: string)
    ensures |s| >= 1 && AllDigits(s)
  {
    if n < 10 then [DigitChar(n)] else Show(n / 10) + [DigitChar(n % 10)]
  }

  /** The canonical code of a periodicity, e.g. "3m". */
  function Format(p: Periodicity): string {
    Show(p.count) + [UnitChar(p.unit)]
  }

  function Zeros(k: nat): (s: string)
    ensures |s| == k && AllDigits(s)
  {
    seq(k, _ => '0')
  }

  lemma {:induction false} DigitsValueShow(n: nat)
    ensures DigitsValue(Show(n)) == n
  {
    if n >= 10 {
      var s := Show(n);
      assert s[..|s| - 1] == Show(n / 10);
      DigitsValueShow(n / 10);
    }
  }

  /** A string of digits has value zero exactly when every digit is '0'. */
  lemma {:induction false} DigitsValueZero(s: string)
    requires AllDigits(s)
    ensures DigitsValue(s) == 0 <==> s == Zeros(|s|)
  {
    if s != [] {
      var init := s[..|s| - 1];
      DigitsValueZero(init);
      if DigitsValue(s) == 0 {
        assert s == init + [s[|s| - 1]];
        assert Zeros(|s|) == Zeros(|init|) + ['0'];
      }
      if s == Zeros(|s|) {
        assert init == Zeros(|init|);
      }
    }
  }

  /** Leading zeros do not change the value of a count. */
  lemma {:induction false} DigitsValueLeadingZeros(k: nat, t: string)
    requires AllDigits(t)
    ensures AllDigits(Zeros(k) + t) && DigitsValue(Zeros(k) + t) == DigitsValue(t)
    decreases |t|
  {
    var u := Zeros(k) + t;
    if t == [] {
      assert u == Zeros(k);
      DigitsValueZero(u);
    } else {
      assert u[..|u| - 1] == Zeros(k) + t[..|t| - 1];
      DigitsValueLeadingZeros(k, t[..|t| - 1]);
    }
  }

  /** Every digit string with a positive value is its canonical notation
      behind some leading zeros. */
  lemma {:induction false} DigitsCanonical(t: string) returns (k: nat)
    requires AllDigits(t) && DigitsValue(t) >= 1
    ensures t == Zeros(k) + Show(DigitsValue(t))
  {
    var init, last := t[..|t| - 1], t[|t| - 1];
    assert t == init + [last];
    var n := DigitsValue(t);
    if DigitsValue(init) == 0 {
      DigitsValueZero(init);
      k := |init|;
      assert DigitChar(DigitValue(last)) == last;
    } else {
      k := DigitsCanonical(init);
      assert n / 10 == DigitsValue(init) && n % 10 == DigitValue(last);
      assert DigitChar(DigitValue(last)) == last;
      assert Show(n) == Show(n / 10) + [last];
    }
  }

  /** Parsing the code of a positive count, with any number of leading zeros,
      gives that count and unit back. */
  lemma ParseFormat(p: Periodicity, k: nat)
    requires p.count >= 1
    ensures Parse(Zeros(k) + Format(p)) == Success(p)
  {
    var s := Zeros(k) + Format(p);
    assert s[..|s| - 1] == Zeros(k) + Show(p.count);
    DigitsValueLeadingZeros(k, Show(p.count));
    DigitsValueShow(p.count);
  }

  /** Conversely, every accepted code is the canonical code of what it
      parses to behind some leading zeros. */
  lemma ParseCanonical(s: string) returns (k: nat)
    requires Parse(s).Success?
    ensures s == Zeros(k) + Format(Parse(s).value)
  {
    var init := s[..|s| - 1];
    k := DigitsCanonical(init);
    assert s == init + [s[|s| - 1]];
  }

  /** The code is rejected as malformed exactly when it is shorter than two
      characters; as not matching the pattern exactly when its count part
      has a non-digit or its last character is not one of d, w, m, y; and
      as non-positive exactly when its count part is all zeros. */
  lemma ParseErrors(s: string)
    ensures Parse(s) == Failure(InvalidFormat) <==> |s| < 2
    ensures Parse(s) == Failure(PatternMismatch)
      <==> |s| >= 2 && !(AllDigits(s[..|s| - 1]) && s[|s| - 1] in "dwmy")
    ensures Parse(s) == Failure(NonPositiveCount)
      <==> |s| >= 2 && AllDigits(s[..|s| - 1]) && s[|s| - 1] in "dwmy" && s[..|s| - 1] == Zeros(|s| - 1)
  {
    if |s| >= 2 && AllDigits(s[..|s| - 1]) {
      DigitsValueZero(s[..|s| - 1]);
    }
  }

  /** Sample codes, accepted and rejected. */
  lemma ParseExamples()
    ensures Parse("1d") == Success(Periodicity(1, Day))
    ensures Parse("2w") == Success(Periodicity(2, Week))
    ensures Parse("3m") == Success(Periodicity(3, Month))
    ensures Parse("1y") == Success(Periodicity(1, Year))
    ensures Parse("12m") == Success(Periodicity(12, Month))
    ensures Parse("") == Failure(InvalidFormat)
    ensures Parse("m") == Failure(InvalidFormat)
    ensures Parse("3x") == Failure(PatternMismatch)
    ensures Parse("am") == Failure(PatternMismatch)
    ensures Parse("0m") == Failure(NonPositiveCount)
    ensures Parse("00d") == Failure(NonPositiveCount)
  {
    ParseFormat(Periodicity(1, Day), 0);
    assert Zeros(0) + Format(Periodicity(1, Day)) == "1d";
    ParseFormat(Periodicity(2, Week), 0);
    assert Zeros(0) + Format(Periodicity(2, Week)) == "2w";
    ParseFormat(Periodicity(3, Month), 0);
    assert Zeros(0) + Format(Periodicity(3, Month)) == "3m";
    ParseFormat(Periodicity(1, Year), 0);
    assert Zeros(0) + Format(Periodicity(1, Year)) == "1y";
    ParseFormat(Periodicity(12, Month), 0);
    assert Zeros(0) + Format(Periodicity(12, Month)) == "12m";
    ParseErrors("00d");
    assert "00d"[..2] == Zeros(2);
  }

  /** The fraction of a year one period covers: count/365, count/52,
      count/12 or count. */
  function PeriodLength(p: Periodicity): (l: real)
    ensures p.count >= 1 ==> l > 0.0
  {
    var count := p.count as real;
    match p.unit
    case Day => count / 365.0
    case Week => count / 52.0
    case Month => count / 12.0
    case Year => count
  }

  /** The length of `count` periods is `count` times the length of one. */
  lemma PeriodLengthLinear(p: Periodicity)
    ensures PeriodLength(p) == p.count as real * PeriodLength(Periodicity(1, p.unit))
  {
  }

  /** `get_period_length`: parse, then the fraction of a year. Every parsed
      unit has a length, so the final "unsupported unit" error cannot be
      reached: the only errors are those of the parser. */
  function GetPeriodLength(value: string): (r: Result<real, PeriodicityError>)
    ensures r.Success? <==> Parse(value).Success?
    ensures r.Success? ==> r.value > 0.0
    ensures r.Failure? ==> r.error == Parse(value).error
  {
    var p :- Parse(value);
    Success(PeriodLength(p))
  }

  /** The `relativedelta` between consecutive due dates. */
  function DueOffset(p: Periodicity): (delta: Calendar.RelDelta)
    ensures Calendar.Normalized(delta)
    ensures p.count >= 1 ==> delta.years + delta.months + delta.days > 0
  {
    match p.unit
    case Day => Calendar.RelativeDelta(0, 0, 0, p.count)
    case Week => Calendar.RelativeDelta(0, 0, p.count, 0)
    case Month => Calendar.RelativeDelta(0, p.count, 0, 0)
    case Year => Calendar.RelativeDelta(p.count, 0, 0, 0)
  }

  /** `next_due_date`: parse, then the offset; `delta` is bound for every
      parsed unit. */
  function NextDueDate(value: string): (r: Result<Calendar.RelDelta, PeriodicityError>)
    ensures r.Success? <==> Parse(value).Success?
    ensures r.Success? ==> Calendar.Normalized(r.value)
    ensures r.Failure? ==> r.error == Parse(value).error
  {
    var p :- Parse(value);
    Success(DueOffset(p))
  }

  /** What one offset does to a date: d adds `count` days, w adds
      `7 count` days, m and y move `count` months or years on with the day
      clamped to the end of the month; in every case the date advances. */
  lemma DueOffsetEffect(p: Periodicity, d: Calendar.Date)
    requires p.count >= 1 && Calendar.Valid(d)
    ensures var r := Calendar.Apply(d, DueOffset(p));
      && Calendar.Before(d, r)
      && (p.unit == Day ==> Calendar.Ordinal(r) == Calendar.Ordinal(d) + p.count)
      && (p.unit == Week ==> Calendar.Ordinal(r) == Calendar.Ordinal(d) + 7 * p.count)
      && (p.unit == Month ==>
            Calendar.MonthIndex(r) == Calendar.MonthIndex(d) + p.count
            && r.day == Calendar.Min(d.day, Calendar.DaysInMonth(r.year, r.month)))
      && (p.unit == Year ==>
            r.year == d.year + p.count && r.month == d.month
            && r.day == Calendar.Min(d.day, Calendar.DaysInMonth(r.year, r.month)))
  {
    Calendar.ApplyAdvances(d, DueOffset(p));
    match p.unit
    case Day => Calendar.ApplyDays(d, p.count);
    case Week => Calendar.ApplyWeeks(d, p.count);
    case Month => Calendar.ApplyMonths(d, p.count);
    case Year => Calendar.ApplyYears(d, p.count);
  }
}

=== FILE: results.dfy ===
/** Success/failure values for operations of the loan engine that raise in
    the loan service (a validation error, a decimal arithmetic error). */
module Results {

  datatype Option<+T> = None | Some(value: T)

  /** Either the value an operation computed or the error it raised. */
  datatype Result<+T, +E> = Success(value: T) | Failure(error: E) {

    predicate IsFailure() {
      Failure?
    }

    function PropagateFailure<U>(): Result<U, E>
      requires Failure?
    {
      Failure(error)
    }

    function Extract(): T
      requires Success?
    {
      value
    }
  }
}

=== FILE: rounding.dfy ===
/** Decimal rounding used everywhere money or a rate is produced:
    `quantize_money` (two decimals) and the four-decimal quantization of the
    interest rate, both with ROUND_HALF_UP, i.e. ties away from zero. */
module Rounding {

  /** Rounds `y` to the nearest integer; a tie (a fraction of exactly one
      half) goes away from zero. */
  function RoundHalfUp(y: real): (k: int)
    ensures y >= 0.0 ==> k as real - 0.5 <= y < k as real + 0.5
    ensures y < 0.0 ==> k as real - 0.5 < y <= k as real + 0.5
  {
    if y >= 0.0 then (y + 0.5).Floor else -((0.5 - y).Floor)
  }

  /** A whole number of cents as a decimal amount. */
  function Money(cents: int): real {
    cents as real / 100.0
  }

  /** `quantize_money`: the amount rounded half-up to two decimals, as the
      number of cents. Being an integer of cents, every result is a multiple
      of 0.01 by construction. */
  function Quantize(x: real): (cents: int)
    ensures x >= 0.0 ==> Money(cents) - 0.005 <= x < Money(cents) + 0.005
    ensures x < 0.0 ==> Money(cents) - 0.005 < x <= Money(cents) + 0.005
  {
    RoundHalfUp(x * 100.0)
  }

  /** A four-decimal rate as a number of ten-thousandths. */
  function Rate(units: int): real {
    units as real / 10000.0
  }

  /** The rate rounded half-up to four decimals, as ten-thousandths. */
  function QuantizeRate(x: real): (units: int)
    ensures x >= 0.0 ==> Rate(units) - 0.00005 <= x < Rate(units) + 0.00005
    ensures x < 0.0 ==> Rate(units) - 0.00005 < x <= Rate(units) + 0.00005
  {
    RoundHalfUp(x * 10000.0)
  }

  /** The rounding is determined by its interval: any integer within half a
      unit (closed towards zero, open away from it) is the result. */
  lemma RoundHalfUpUnique(y: real, k: int)
    requires y >= 0.0 ==> k as real - 0.5 <= y < k as real + 0.5
    requires y < 0.0 ==> k as real - 0.5 < y <= k as real + 0.5
    ensures RoundHalfUp(y) == k
  {
  }

  /** Rounding never reverses the order of two values. */
  lemma QuantizeMonotonic(x: real, y: real)
    requires x <= y
    ensures Quantize(x) <= Quantize(y)
  {
  }

  /** An amount that already has two decimals is left as it is. */
  lemma QuantizeExact(cents: int)
    ensures Quantize(Money(cents)) == cents
  {
  }

  /** Quantizing twice is the same as quantizing once. */
  lemma QuantizeIdempotent(x: real)
    ensures Quantize(Money(Quantize(x))) == Quantize(x)
  {
    QuantizeExact(Quantize(x));
  }

  /** Half a cent is rounded away from zero, on both sides of zero. */
  lemma QuantizeTiesAwayFromZero(k: nat)
    ensures Quantize((k as real + 0.5) / 100.0) == k + 1
    ensures Quantize(-(k as real + 0.5) / 100.0) == -(k + 1)
  {
  }

  /** A non-negative amount rounds to a non-negative number of cents. */
  lemma QuantizeNonNegative(x: real)
    requires x >= 0.0
    ensures Quantize(x) >= 0
  {
  }

  /** A rate that already has four decimals is left as it is. */
  lemma QuantizeRateExact(units: int)
    ensures QuantizeRate(Rate(units)) == units
  {
  }
}

=== FILE: schedule.dfy ===
/** Schedule generation (`LoanScheduleCreateView.calculate_emi` and
    `create_payments`): the level payment, then one installment per period
    with interest on the remaining balance and the final installment taking
    whatever principal is left. */
module Schedule {
  import opened Results
  import opened Rounding
  import opened Loans
  import Calendar
  import Periodicity
  import Annuity

  /** `calculate_emi`: `P / n` when the per-period rate is zero, otherwise
      the annuity formula; both rounded to cents. At `i = -1` the decimal
      power `0 ** -n` is Infinity (no signal is trapped), the denominator
      is -Infinity and the quotient rounds to 0. When `(1 + i)^(-n)` is 1
      the denominator is zero and the division raises a decimal error. */
  function CalculateEmi(amount: int, n: nat, i: real): (r: Result<int, EngineError>)
    requires n >= 1
    ensures i == 0.0 ==> r == Success(Quantize(Money(amount) / n as real))
    ensures i == 0.0 ==> r.Success? && -0.005 <= Money(r.value) - Money(amount) / n as real <= 0.005
    ensures i != 0.0 ==> (r.Success? <==> Annuity.Pow(1.0 + i, n) != 1.0)
    ensures i == -1.0 ==> r == Success(0)
    ensures i > 0.0 ==> r.Success?
    ensures r.Failure? ==> r.error == DecimalError
  {
    if i == 0.0 then Success(Quantize(Money(amount) / n as real))
    else
      var q := Annuity.Pow(1.0 + i, n);
      Annuity.PowAboveOne(i, n);
      if q == 0.0 then Success(0)
      else
        var denominator := 1.0 - 1.0 / q;
        if denominator == 0.0 then Failure(DecimalError)
        else Success(Quantize(Annuity.LevelPayment(Money(amount), i, n)))
  }

  /** At a zero rate an exact half cent rounds up: one cent over two
      payments is an EMI of 0.01, and minus one cent is -0.01. */
  lemma CalculateEmiZeroRateTies()
    ensures CalculateEmi(1, 2, 0.0) == Success(1)
    ensures CalculateEmi(-1, 2, 0.0) == Success(-1)
    ensures CalculateEmi(5, 2, 0.0) == Success(3)
  {
  }

  /** Installments `k..n` of a schedule, given the balance still owed before
      installment `k`, the level payment, the per-period rate, the previous
      due date and the offset between due dates. */
  function Installments(k: nat, n: nat, remaining: int, emi: int, rate: real,
                        previous: Calendar.Date, delta: Calendar.RelDelta): (r: seq<Payment>)
    requires 1 <= k <= n + 1
    requires Calendar.Valid(previous) && Calendar.Normalized(delta)
    ensures |r| == n + 1 - k
    ensures forall j :: 0 <= j < |r| ==> r[j].sequence == k + j
    ensures k <= n ==> SumPrincipal(r) == remaining
    decreases n + 1 - k
  {
    if k > n then []
    else
      var due := Calendar.Apply(previous, delta);
      var interest := InterestOn(remaining, rate);
      var principal := if k == n then Quantize(Money(remaining)) else Quantize(Money(emi - interest));
      [Payment(k, due, principal, interest)]
        + Installments(k + 1, n, remaining - principal, emi, rate, due, delta)
  }

  /** `create_payments` for a loan whose terms passed validation (at least
      one payment, a real start date). */
  function CreatePayments(loan: Loan): (r: Result<seq<Payment>, EngineError>)
    requires loan.numberOfPayments >= 1 && Calendar.Valid(loan.startDate)
    ensures r.Success? ==> |r.value| == loan.numberOfPayments
    ensures r.Success? ==> forall j :: 0 <= j < |r.value| ==> r.value[j].sequence == j + 1
    ensures r.Success? ==> SumPrincipal(r.value) == loan.amount
    ensures Periodicity.Parse(loan.periodicity).Failure? ==>
      r == Failure(InvalidPeriodicity(Periodicity.Parse(loan.periodicity).error))
    ensures Periodicity.Parse(loan.periodicity).Success? && loan.interestRate >= 0 ==> r.Success?
    ensures Periodicity.Parse(loan.periodicity).Success? ==>
      (r.Success? <==> loan.interestRate == 0
                       || Annuity.Pow(1.0 + PerPeriodRate(loan).value, loan.numberOfPayments) != 1.0)
    ensures r.Failure? && Periodicity.Parse(loan.periodicity).Success? ==> r.error == DecimalError
  {
    match Periodicity.Parse(loan.periodicity)
    case Failure(e) => Failure(InvalidPeriodicity(e))
    case Success(p) =>
      var rate := RatePerPeriod(loan.interestRate, p);
      assert loan.interestRate > 0 ==> rate > 0.0;
      var emi :- CalculateEmi(loan.amount, loan.numberOfPayments, rate);
      Success(Installments(1, loan.numberOfPayments, loan.amount, emi, rate, loan.startDate, Periodicity.DueOffset(p)))
  }

  /** Every installment of `r` charges interest on the balance still owed
      before it, starting from `remaining`. */
  predicate InterestOnBalance(r: seq<Payment>, remaining: int, rate: real) {
    forall j :: 0 <= j < |r| ==> r[j].interest == InterestOn(remaining - SumPrincipal(r[..j]), rate)
  }

  /** One step of the generator: the first installment is due one offset
      after the previous date, charges interest on the whole remaining
      balance, and is followed by the installments generated from the
      balance that is left. */
  lemma InstallmentsUnfold(k: nat, n: nat, remaining: int, emi: int, rate: real,
                           previous: Calendar.Date, delta: Calendar.RelDelta, r: seq<Payment>)
    requires 1 <= k <= n
    requires Calendar.Valid(previous) && Calendar.Normalized(delta)
    requires r == Installments(k, n, remaining, emi, rate, previous, delta)
    ensures r == [r[0]] + Installments(k + 1, n, remaining - r[0].principal, emi, rate,
                                       Calendar.Apply(previous, delta), delta)
    ensures r[1..] == Installments(k + 1, n, remaining - r[0].principal, emi, rate,
                                   Calendar.Apply(previous, delta), delta)
    ensures r[0].dueDate == Calendar.Apply(previous, delta)
    ensures r[0].interest == InterestOn(remaining, rate)
    ensures r[0].principal == if k == n then remaining else emi - r[0].interest
  {
    QuantizeExact(remaining);
    QuantizeExact(emi - r[0].interest);
  }

  /** The same rule as a recurrence: the first installment charges interest
      on `remaining`, the rest on what is left after its principal. */
  predicate InterestChain(r: seq<Payment>, remaining: int, rate: real)
    decreases |r|
  {
    r == [] || (r[0].interest == InterestOn(remaining, rate)
                && InterestChain(r[1..], remaining - r[0].principal, rate))
  }

  /** Each installment's interest is the balance still owed before it
      times the rate, rounded to cents. */
  lemma {:induction false} InstallmentsInterest(k: nat, n: nat, remaining: int, emi: int, rate: real,
                                                previous: Calendar.Date, delta: Calendar.RelDelta,
                                                r: seq<Payment>)
    requires 1 <= k <= n + 1
    requires Calendar.Valid(previous) && Calendar.Normalized(delta)
    requires r == Installments(k, n, remaining, emi, rate, previous, delta)
    ensures InterestChain(r, remaining, rate)
    decreases n + 1 - k
  {
    if k <= n {
      InstallmentsUnfold(k, n, remaining, emi, rate, previous, delta, r);
      InstallmentsInterest(k + 1, n, remaining - r[0].principal, emi, rate, Calendar.Apply(previous, delta), delta, r[1..]);
    }
  }

  /** The recurrence and the closed rule agree: in a chain every position
      charges interest on the starting balance less the principals before
      it. */
  lemma {:induction false} InterestChainBalance(r: seq<Payment>, remaining: int, rate: real)
    requires InterestChain(r, remaining, rate)
    ensures InterestOnBalance(r, remaining, rate)
    decreases |r|
  {
    if r != [] {
      InterestChainBalance(r[1..], remaining - r[0].principal, rate);
      InterestStep(r, remaining, rate);
    }
  }

  /** Prepending an installment that charges interest on the whole balance
      keeps "interest on what is still owed" true of every position. */
  lemma InterestStep(r: seq<Payment>, remaining: int, rate: real)
    requires |r| > 0 && r[0].interest == InterestOn(remaining, rate)
    requires InterestOnBalance(r[1..], remaining - r[0].principal, rate)
    ensures InterestOnBalance(r, remaining, rate)
  {
    forall j | 0 <= j < |r|
      ensures r[j].interest == InterestOn(remaining - SumPrincipal(r[..j]), rate)
    {
      if j == 0 {
        assert r[..0] == [];
      } else {
        PrefixSum(r, j);
        assert r[j] == r[1..][j - 1];
      }
    }
  }

  lemma PrefixSum(r: seq<Payment>, j: nat)
    requires 1 <= j <= |r|
    ensures SumPrincipal(r[..j]) == r[0].principal + SumPrincipal(r[1..][..j - 1])
  {
    var s := r[..j];
    assert s[0] == r[0] && s[1..] == r[1..][..j - 1];
  }

  /** Every installment of `r` but the last repays the level payment minus
      its interest. */
  predicate LevelPrincipals(r: seq<Payment>, emi: int) {
    forall j :: 0 <= j < |r| - 1 ==> r[j].principal == emi - r[j].interest
  }

  /** Each installment but the last repays the level payment minus its
      interest; the last repays exactly what is still owed before it. */
  lemma {:induction false} InstallmentsPrincipal(k: nat, n: nat, remaining: int, emi: int, rate: real,
                                                 previous: Calendar.Date, delta: Calendar.RelDelta,
                                                 r: seq<Payment>)
    requires 1 <= k <= n + 1
    requires Calendar.Valid(previous) && Calendar.Normalized(delta)
    requires r == Installments(k, n, remaining, emi, rate, previous, delta)
    ensures LevelPrincipals(r, emi)
    decreases n + 1 - k
  {
    if k < n {
      InstallmentsUnfold(k, n, remaining, emi, rate, previous, delta, r);
      var due := Calendar.Apply(previous, delta);
      var rest := Installments(k + 1, n, remaining - r[0].principal, emi, rate, due, delta);
      InstallmentsPrincipal(k + 1, n, remaining - r[0].principal, emi, rate, due, delta, rest);
      PrincipalStep(r[0], rest, emi, r);
    }
  }

  /** The last installment repays exactly what is still owed before it, so
      the principals add up to the balance the schedule started from. */
  lemma FinalPlug(k: nat, n: nat, remaining: int, emi: int, rate: real,
                  previous: Calendar.Date, delta: Calendar.RelDelta, r: seq<Payment>)
    requires 1 <= k <= n
    requires Calendar.Valid(previous) && Calendar.Normalized(delta)
    requires r == Installments(k, n, remaining, emi, rate, previous, delta)
    ensures r[|r| - 1].principal == remaining - SumPrincipal(r[..|r| - 1])
  {
    assert r == r[..|r| - 1] + [r[|r| - 1]];
    SumPrincipalAppend(r[..|r| - 1], [r[|r| - 1]]);
  }

  /** Prepending a non-final installment that repays the level payment minus
      its interest keeps the level-principal rule true of every position. */
  lemma PrincipalStep(p: Payment, rest: seq<Payment>, emi: int, r: seq<Payment>)
    requires r == [p] + rest && |rest| > 0
    requires p.principal == emi - p.interest
    requires LevelPrincipals(rest, emi)
    ensures LevelPrincipals(r, emi)
  {
    forall j | 1 <= j < |r| - 1
      ensures r[j].principal == emi - r[j].interest
    {
      assert r[j] == rest[j - 1];
    }
  }

  /** Due dates compound: the first is one offset after the previous date,
      each later one is one offset after the one before it. */
  lemma {:induction false} InstallmentsDueDates(k: nat, n: nat, remaining: int, emi: int, rate: real,
                                                previous: Calendar.Date, delta: Calendar.RelDelta,
                                                r: seq<Payment>)
    requires 1 <= k <= n + 1
    requires Calendar.Valid(previous) && Calendar.Normalized(delta)
    requires r == Installments(k, n, remaining, emi, rate, previous, delta)
    ensures forall j :: 0 <= j < |r| ==> Calendar.Valid(r[j].dueDate)
    ensures |r| > 0 ==> r[0].dueDate == Calendar.Apply(previous, delta)
    ensures forall j :: 1 <= j < |r| ==> r[j].dueDate == Calendar.Apply(r[j - 1].dueDate, delta)
    decreases n + 1 - k
  {
    InstallmentsValidDates(k, n, remaining, emi, rate, previous, delta, r);
    if k <= n {
      InstallmentsUnfold(k, n, remaining, emi, rate, previous, delta, r);
      InstallmentsDueDates(k + 1, n, remaining - r[0].principal, emi, rate, Calendar.Apply(previous, delta), delta, r[1..]);
      forall j | 1 <= j < |r|
        ensures r[j].dueDate == Calendar.Apply(r[j - 1].dueDate, delta)
      {
        assert r[j] == r[1..][j - 1];
        if j >= 2 {
          assert r[j - 1] == r[1..][j - 2];
        }
      }
    }
  }

  /** Every generated due date is a real calendar date. */
  lemma {:induction false} InstallmentsValidDates(k: nat, n: nat, remaining: int, emi: int, rate: real,
                                                  previous: Calendar.Date, delta: Calendar.RelDelta,
                                                  r: seq<Payment>)
    requires 1 <= k <= n + 1
    requires Calendar.Valid(previous) && Calendar.Normalized(delta)
    requires r == Installments(k, n, remaining, emi, rate, previous, delta)
    ensures forall j :: 0 <= j < |r| ==> Calendar.Valid(r[j].dueDate)
    decreases n + 1 - k
  {
    if k <= n {
      InstallmentsUnfold(k, n, remaining, emi, rate, previous, delta, r);
      InstallmentsValidDates(k + 1, n, remaining - r[0].principal, emi, rate, Calendar.Apply(previous, delta), delta, r[1..]);
      forall j | 1 <= j < |r|
        ensures Calendar.Valid(r[j].dueDate)
      {
        assert r[j] == r[1..][j - 1];
      }
    }
  }

  /** Dates whose neighbours are in order are in order pairwise. */
  lemma {:induction false} ChainOrdered(ds: seq<Calendar.Date>)
    requires forall j :: 1 <= j < |ds| ==> Calendar.Before(ds[j - 1], ds[j])
    ensures forall a, b :: 0 <= a < b < |ds| ==> Calendar.Before(ds[a], ds[b])
  {
    if |ds| > 1 {
      ChainOrdered(ds[..|ds| - 1]);
      forall a | 0 <= a < |ds| - 1
        ensures Calendar.Before(ds[a], ds[|ds| - 1])
      {
        if a < |ds| - 2 {
          assert Calendar.Before(ds[a], ds[|ds| - 2]);
        }
      }
    }
  }

  /** A created schedule is the generator run from installment 1 with the
      loan amount as balance, the loan's per-period rate and level payment,
      seeded with the start date. */
  lemma CreatePaymentsUnfold(loan: Loan, r: seq<Payment>)
    requires loan.numberOfPayments >= 1 && Calendar.Valid(loan.startDate)
    requires CreatePayments(loan) == Success(r)
    ensures Periodicity.Parse(loan.periodicity).Success?
    ensures PerPeriodRate(loan).Success?
    ensures CalculateEmi(loan.amount, loan.numberOfPayments, PerPeriodRate(loan).value).Success?
    ensures Periodicity.NextDueDate(loan.periodicity)
      == Success(Periodicity.DueOffset(Periodicity.Parse(loan.periodicity).value))
    ensures r == Installments(1, loan.numberOfPayments, loan.amount,
                              CalculateEmi(loan.amount, loan.numberOfPayments, PerPeriodRate(loan).value).value,
                              PerPeriodRate(loan).value, loan.startDate,
                              Periodicity.DueOffset(Periodicity.Parse(loan.periodicity).value))
  {
  }

  /** Dates in strictly increasing order. */
  predicate Increasing(ds: seq<Calendar.Date>) {
    forall a, b :: 0 <= a < b < |ds| ==> Calendar.Before(ds[a], ds[b])
  }

  function DueDates(r: seq<Payment>): (ds: seq<Calendar.Date>)
    ensures |ds| == |r| && forall j :: 0 <= j < |r| ==> ds[j] == r[j].dueDate
  {
    seq(|r|, j requires 0 <= j < |r| => r[j].dueDate)
  }

  /** A created schedule's due dates start one offset after the loan's
      start date, compound from each other, and strictly increase. */
  lemma CreatePaymentsDueDates(loan: Loan, r: seq<Payment>)
    requires loan.numberOfPayments >= 1 && Calendar.Valid(loan.startDate)
    requires CreatePayments(loan) == Success(r)
    ensures Periodicity.NextDueDate(loan.periodicity).Success?
    ensures forall j :: 0 <= j < |r| ==> Calendar.Valid(r[j].dueDate)
    ensures r[0].dueDate == Calendar.Apply(loan.startDate, Periodicity.NextDueDate(loan.periodicity).value)
    ensures forall j :: 1 <= j < |r| ==>
      r[j].dueDate == Calendar.Apply(r[j - 1].dueDate, Periodicity.NextDueDate(loan.periodicity).value)
    ensures Calendar.Before(loan.startDate, r[0].dueDate)
    ensures Increasing(DueDates(r))
  {
    CreatePaymentsUnfold(loan, r);
    var p := Periodicity.Parse(loan.periodicity).value;
    var delta := Periodicity.DueOffset(p);
    InstallmentsDueDates(1, loan.numberOfPayments, loan.amount,
                         CalculateEmi(loan.amount, loan.numberOfPayments, PerPeriodRate(loan).value).value,
                         PerPeriodRate(loan).value, loan.startDate, delta, r);

    Periodicity.DueOffsetEffect(p, loan.startDate);
    var ds := DueDates(r);
    forall j | 1 <= j < |ds|
      ensures Calendar.Before(ds[j - 1], ds[j])
    {
      Periodicity.DueOffsetEffect(p, r[j - 1].dueDate);
    }
    ChainOrdered(ds);
  }

  /** The amounts of a created schedule: interest on the remaining balance
      at the per-period rate, the level payment minus interest as principal,
      and the last installment taking the remainder, so that nothing is owed
      after it. */
  lemma CreatePaymentsAmounts(loan: Loan, r: seq<Payment>)
    requires loan.numberOfPayments >= 1 && Calendar.Valid(loan.startDate)
    requires CreatePayments(loan) == Success(r)
    ensures PerPeriodRate(loan).Success?
    ensures CalculateEmi(loan.amount, loan.numberOfPayments, PerPeriodRate(loan).value).Success?
    ensures InterestOnBalance(r, loan.amount, PerPeriodRate(loan).value)
    ensures LevelPrincipals(r, CalculateEmi(loan.amount, loan.numberOfPayments, PerPeriodRate(loan).value).value)
    ensures r[|r| - 1].principal == loan.amount - SumPrincipal(r[..|r| - 1])
    ensures loan.amount - SumPrincipal(r) == 0
  {
    CreatePaymentsUnfold(loan, r);
    var p := Periodicity.Parse(loan.periodicity).value;
    var rate := PerPeriodRate(loan).value;
    var emi := CalculateEmi(loan.amount, loan.numberOfPayments, rate).value;
    InstallmentsInterest(1, loan.numberOfPayments, loan.amount, emi, rate, loan.startDate, Periodicity.DueOffset(p), r);
    InterestChainBalance(r, loan.amount, rate);
    InstallmentsPrincipal(1, loan.numberOfPayments, loan.amount, emi, rate, loan.startDate, Periodicity.DueOffset(p), r);
    FinalPlug(1, loan.numberOfPayments, loan.amount, emi, rate, loan.startDate, Periodicity.DueOffset(p), r);
  }

  /** With a zero interest rate every interest is 0.00 and every
      installment but the last repays `P / N` rounded to cents. */
  lemma CreatePaymentsZeroRate(loan: Loan, r: seq<Payment>)
    requires loan.numberOfPayments >= 1 && Calendar.Valid(loan.startDate)
    requires Periodicity.Parse(loan.periodicity).Success? && loan.interestRate == 0
    requires CreatePayments(loan) == Success(r)
    ensures forall j :: 0 <= j < |r| ==> r[j].interest == 0
    ensures forall j :: 0 <= j < |r| - 1 ==> r[j].principal == Quantize(Money(loan.amount) / loan.numberOfPayments as real)
  {
    CreatePaymentsAmounts(loan, r);
    forall j | 0 <= j < |r|
      ensures r[j].interest == 0
    {
      assert r[j].interest == InterestOn(loan.amount - SumPrincipal(r[..j]), 0.0);
    }
  }

  /** The rule the rounding follows: the rounded level payment is within
      half a cent of the exact one, and the exact one retires the loan in N
      periods. */
  lemma EmiRetiresLoan(amount: int, n: nat, i: real)
    requires n >= 1 && i != 0.0 && Annuity.Defined(i, n)
    ensures Annuity.Balance(Money(amount), i, Annuity.LevelPayment(Money(amount), i, n), n) == 0.0
    ensures CalculateEmi(amount, n, i).Success?
    ensures -0.005 <= Money(CalculateEmi(amount, n, i).value) - Annuity.LevelPayment(Money(amount), i, n) <= 0.005
  {
    Annuity.LevelPaymentRetiresLoan(Money(amount), i, n);
  }
}

=== FILE: serializers.dfy ===
/** The input rules that guard the engine: the loan-creation serializer's
    interest-rate and periodicity validators, and the adjustment
    serializer's `validate` and `save`. */
module Serializers {
  import opened Results
  import opened Rounding
  import opened Loans
  import Periodicity
  import Adjustment

  /** `validate_interest_rate` on a rate given with four decimals (`units`
      ten-thousandths): a value above 1 is read as a percentage and divided
      by 100; the result is rounded half-up to four decimals. */
  function ValidateInterestRate(units: int): (r: int)
    ensures units <= 10000 ==> r == units
    ensures units > 10000 ==> 0 < r < units
    ensures units > 10000 ==> Rate(r) - 0.00005 <= Rate(units) / 100.0 < Rate(r) + 0.00005
  {
    var value := Rate(units);
    var scaled := if value > 1.0 then value / 100.0 else value;
    QuantizeRateExact(units);
    QuantizeRate(scaled)
  }

  /** A percentage with at most two decimals becomes the same rate as a
      fraction, exactly. */
  lemma ValidateInterestRatePercentage(percent: int)
    requires percent > 100
    ensures ValidateInterestRate(100 * percent) == percent
  {
    var r := ValidateInterestRate(100 * percent);
    assert Rate(100 * percent) / 100.0 == Rate(percent);
    RoundHalfUpUnique(Rate(percent) * 10000.0, percent);
    assert Rate(r) - 0.00005 <= Rate(percent) < Rate(r) + 0.00005;
    assert r as real - 0.5 <= percent as real < r as real + 0.5;
  }

  /** Every rate up to 100% validates to a fraction of at most 1, which
      validates to itself: validation is idempotent there. */
  lemma ValidateInterestRateIdempotent(units: int)
    requires units <= 1000000
    ensures ValidateInterestRate(units) <= 10000
    ensures ValidateInterestRate(ValidateInterestRate(units)) == ValidateInterestRate(units)
  {
    var r := ValidateInterestRate(units);
    if units > 10000 {
      assert Rate(units) / 100.0 <= 1.0;
      assert Rate(r) - 0.00005 <= 1.0;
      assert r as real <= 10000.5;
    }
  }

  /** 100 is a percentage (1.0000), 1 is kept as the whole rate (so 1 is not
      divided), 0.1 is kept as a fraction (0.1000). */
  lemma ValidateInterestRateExamples()
    ensures ValidateInterestRate(1000000) == 10000
    ensures ValidateInterestRate(10000) == 10000
    ensures ValidateInterestRate(1000) == 1000
    ensures ValidateInterestRate(125000) == 1250
  {
    ValidateInterestRatePercentage(10000);
    ValidateInterestRatePercentage(1250);
  }

  /** `validate_periodicity`: the input, unchanged, when it parses;
      otherwise the parser's error. */
  function ValidatePeriodicity(value: string): (r: Result<string, Periodicity.PeriodicityError>)
    ensures r.Success? <==> Periodicity.Parse(value).Success?
    ensures r.Success? ==> r.value == value
    ensures r.Failure? ==> r.error == Periodicity.Parse(value).error
  {
    var _ :- Periodicity.Parse(value);
    Success(value)
  }

  /** Every periodicity written in its canonical form (with any number of
      leading zeros) is accepted and kept as written. */
  lemma ValidatePeriodicityFormat(p: Periodicity.Periodicity, k: nat)
    requires p.count >= 1
    ensures ValidatePeriodicity(Periodicity.Zeros(k) + Periodicity.Format(p))
      == Success(Periodicity.Zeros(k) + Periodicity.Format(p))
  {
    Periodicity.ParseFormat(p, k);
  }

  /** `PaymentAdjustmentSerializer` validation of a reduction (in cents)
      against the payment's current principal: the field's lower bound of 0
      first, then the object-level check against the principal. */
  function ValidateReduction(payment: Payment, reduction: int): (r: Result<int, EngineError>)
    ensures r.Success? <==> 0 <= reduction <= payment.principal
    ensures r.Success? ==> r.value == reduction
    ensures reduction < 0 ==> r == Failure(NegativeReduction)
    ensures 0 <= reduction && reduction > payment.principal ==> r == Failure(ReductionExceedsPrincipal)
  {
    if reduction < 0 then Failure(NegativeReduction)
    else if reduction > payment.principal then Failure(ReductionExceedsPrincipal)
    else Success(reduction)
  }

  /** Validation followed by `save`, which runs the same two-step reduction
      as `adjust_payment`: it succeeds exactly when the reduction is valid and
      the loan's periodicity parses, and then yields what `adjust_payment`
      yields. */
  function ValidateAndSave(loan: Loan, ps: seq<Payment>, payment: Payment, reduction: int): (r: Result<Adjustment.Adjusted, EngineError>)
    ensures r.Success? <==> 0 <= reduction <= payment.principal && Periodicity.Parse(loan.periodicity).Success?
    ensures 0 <= reduction <= payment.principal ==> r == Adjustment.AdjustPayment(loan, ps, payment, reduction)
    ensures !(0 <= reduction <= payment.principal) ==> r == ValidateReduction(payment, reduction).PropagateFailure()
  {
    var accepted :- ValidateReduction(payment, reduction);
    Adjustment.AdjustPayment(loan, ps, payment, accepted)
  }

  /** After a validated save the changed installment's principal lies
      between 0 and its principal before the save. */
  lemma ValidateAndSaveBounds(loan: Loan, ps: seq<Payment>, payment: Payment, reduction: int,
                              adjusted: Adjustment.Adjusted, j: nat)
    requires ValidateAndSave(loan, ps, payment, reduction) == Success(adjusted)
    requires j < |ps| && ps[j].sequence == payment.sequence
    ensures 0 <= adjusted.schedule[j].principal <= payment.principal
    ensures adjusted.payment.principal == payment.principal - reduction >= 0
  {
    Adjustment.AdjustPaymentDoubleReduction(loan, ps, payment, reduction, adjusted, j);
  }
}
